=== FILE: README.md ===
# covid-map-service-compose: cache refresh, progress loop and codecs in Dafny

This project models the core of the Android vaccination-center map app. It
covers four parts, written as pure functions over immutable datatypes plus two
methods without side effects (`CenterApi.CallAPI` and `Cache.SplashStart`):

- **The splash progress loop** (`updateAPICacheAndReturnFlow`) is a small-step
  machine. Each step runs from one read of the readiness flag to the next and
  emits at most one `(progress, done)` pair. Readiness and the two clock readings
  a step makes are inputs. Progress is a real number.
- **The refresh gate.** `clearCacheDB` and `updateAPICache` act on an abstract
  store of `Center` rows and on the `isDBInUse` flag. An application state ties
  the flag to the running progress loop and to the page answers still pending.
  The splash screen's choice of whether to refresh is modelled too.
- **The domain conversion** (`centerTypeToColor`, the eight-argument `Center`
  constructor, `centerModelToCenter`) and the Room **position codec**
  (`"<lat>;<lng>"`). A `Double` is its numeric text: a token that matches a
  decimal grammar with an optional sign and exponent.
- **The REST client loop** (`CenterAPI.callAPI`). It requests pages 1..n and
  routes each page's outcome to the page-done callback, the page-failed
  callback, or the null-body exception. The server is a parameter: the
  outcome it gives for each page index.

Modules: `Base` (Option, Result, failures, and list helpers such as `IndexOf`, `FlatMap`, `MapResult` and `FoldSteps`), `Geometry`,
`PositionCodec`, `CenterApi`, `Domain`, `Progress`, `ProgressProperties`,
`Cache`.

Two consequences of the code are easy to miss:

- The progress shown can fall back to 0.8. The loop emits its progress at
  the top of each iteration and only then tests for the wait. So any tick
  that leaves progress above 0.8 while data is still not ready is emitted
  as it is, and the next emission is the pinned `(0.8, false)`. A slow tick
  can even carry the ramp to 1, giving `(1, false)` and then `(0.8, false)`.
  `ProgressProperties.ProgressCanFallBack` exhibits that run.
  `ProgressProperties.ProgressRises` states what does hold: every emission
  is at least the previous one, except the pinned `(0.8, false)` of a wait.
- The first ramp heads for 1.0 over 2000 ms, as the comment at
  `presentation/MainViewModel.kt:135` says ("over the span of 2 seconds").
  The value 0.8 is only the point where the loop waits for data. After a
  wait, the ramp restarts from 0.8 and heads for 1.0 over 700 ms
  (`presentation/MainViewModel.kt:163`).

## Model

| member | source | states |
|---|---|---|
| `Geometry.ToDouble` | app/src/main/java/com/vin/covidmapservice/domain/Center.kt:42 | `toDouble` succeeds exactly on numeric text, and the number it yields is that text |
| `Geometry.ToText` | app/src/main/java/com/vin/covidmapservice/data/CenterCacheDBAbstract.kt:33 | a number's text parses back to the same number and never contains the `;` separator |
| `Geometry.NumericHasNoSemicolon` | app/src/main/java/com/vin/covidmapservice/data/CenterCacheDBAbstract.kt:28-33 | no numeric text contains `;`, so a component never breaks the split |
| `Geometry.PointedDigitsAreNumeric` | app/src/main/java/com/vin/covidmapservice/domain/Center.kt:42 | coordinates shaped like the API's, digits, a point and digits such as `37.5`, parse as numbers |
| `PositionCodec.Split` | app/src/main/java/com/vin/covidmapservice/data/CenterCacheDBAbstract.kt:28 | Kotlin's `split(";")`: at least one piece; no piece contains the separator; the pieces joined back give the input; exactly one piece iff there is no separator |
| `PositionCodec.SplitJoin` | app/src/main/java/com/vin/covidmapservice/data/CenterCacheDBAbstract.kt:28 | splitting the join of separator-free pieces gives back those pieces, empty pieces included |
| `PositionCodec.LatLngToStringPos` | app/src/main/java/com/vin/covidmapservice/data/CenterCacheDBAbstract.kt:32-34 | the latitude's text is followed by the separator; the stored text splits into exactly the latitude's text and the longitude's text; decoding it gives back the same position |
| `PositionCodec.FromStringPos` | app/src/main/java/com/vin/covidmapservice/data/CenterCacheDBAbstract.kt:27-30 | decoding succeeds iff there are at least two pieces and pieces 0 and 1 are numeric; the failure comes from piece 0's parse, then from a missing piece 1, then from piece 1's parse; text without a separator always fails |
| `PositionCodec.DecodePair` | app/src/main/java/com/vin/covidmapservice/data/CenterCacheDBAbstract.kt:27-34 | `a;b` decodes to the position with texts `a` and `b` when both are numeric, and otherwise fails with the parse error of the first bad one |
| `PositionCodec.DecodeIgnoresTail` | app/src/main/java/com/vin/covidmapservice/data/CenterCacheDBAbstract.kt:28-29 | anything after a second `;` does not change the result |
| `PositionCodec.DecodeNeedsSeparator` | app/src/main/java/com/vin/covidmapservice/data/CenterCacheDBAbstract.kt:28-29 | text without `;` fails; for a number alone, the failure is the missing piece 1 |
| `CenterApi.OnOutcome` | app/src/main/java/com/vin/covidmapservice/data/api/CenterAPI.kt:46-61 | exactly one of three outcomes per page. Page-done with the body's records iff the response is successful with code 200 and has a body. Page-failed iff it is not accepted, with the response code, or -1 after a transport failure. A null-pointer failure iff the response is accepted but the body is null |
| `CenterApi.ConsecutiveRequestsOnce` | app/src/main/java/com/vin/covidmapservice/data/api/CenterAPI.kt:45 | consecutive page numbers name each page of their range exactly once and no other page |
| `CenterApi.CallAPI` | app/src/main/java/com/vin/covidmapservice/data/api/CenterAPI.kt:39-67 | max(pages, 0) requests for pages 1, 2, … in order, with 10 records per page; every page in 1..pages exactly once and no other; the i-th delivery is the routing of the server's answer for page i; slow emulation only sets the pause after each request to 500 ms |
| `Domain.CenterTypeToColor` | app/src/main/java/com/vin/covidmapservice/domain/Center.kt:30-35 | transparent iff the type is "중앙/권역"; blue iff it is "지역"; magenta for every other text, the empty one included |
| `Domain.NewCenter` | app/src/main/java/com/vin/covidmapservice/domain/Center.kt:26 | the secondary constructor keeps the eight fields given and sets the marker colour that the center type calls for |
| `Domain.CenterModelToCenter` | app/src/main/java/com/vin/covidmapservice/domain/Center.kt:39-49 | succeeds iff both `lat` and `lng` are numeric. A bad `lat` fails first, then a bad `lng`, with no fallback. On success the position has those texts, seven fields are copied unchanged and the colour matches the type |
| `Domain.ConversionIgnoresRegionFields` | app/src/main/java/com/vin/covidmapservice/domain/Center.kt:39-49 | records that differ only in `sido`, `sigungu`, `zipCode`, `createdAt` or `org` convert alike; two records that convert to the same center agree on the seven fields copied unchanged: `id`, `address`, `centerName`, `facilityName`, `phoneNumber`, `updatedAt` and `centerType` |
| `Progress.StepCount` | app/src/main/java/com/vin/covidmapservice/presentation/MainViewModel.kt:174 | the tick count is never negative, and it is at most 1 iff less than 20 ms of the budget is left |
| `Progress.Advance` | app/src/main/java/com/vin/covidmapservice/presentation/MainViewModel.kt:172-176 | from progress in [0, 1] a step never goes down or past 1; it lands on exactly 1 iff it was already there or less than 20 ms of the budget is left |
| `Progress.Start` | app/src/main/java/com/vin/covidmapservice/presentation/MainViewModel.kt:136-150 | the loop starts at progress 0, not waiting, with the 2000 ms budget measured from the start clock and the given readiness, and its first step emits `(0, false)` whatever happens |
| `Progress.Step` | app/src/main/java/com/vin/covidmapservice/presentation/MainViewModel.kt:148-177 | readiness only grows; the invariant is kept; done is emitted iff the loop is left, only as `(1, true)` with data ready; a finished loop stays put; at the loop head, short of 1 or without data, the current progress is emitted as `(progress, false)` and nothing but the position changes; with progress ≥ 0.8 and no data, progress is pinned at 0.8 and the emission is `(0.8, false)`; an ordinary step emits nothing and advances progress along the ramp from the kept budget and reference; every emission from a sound state lies in [0, 1]; leaving a wait emits nothing, returns to the loop head and restarts from 0.8 with a 700 ms budget measured from a fresh reference; without a wait the budget and reference stay |
| `ProgressProperties.RunKeepsInvariant` | app/src/main/java/com/vin/covidmapservice/presentation/MainViewModel.kt:148-177 | the loop invariant (progress in [0, 1], budget 2000 or 700, waiting only at 0.8 and not ready, finished only at 1 and ready) holds after any run |
| `ProgressProperties.EmissionsInRange` | app/src/main/java/com/vin/covidmapservice/presentation/MainViewModel.kt:148-177 | every emission of a run from a sound state lies in [0, 1] |
| `ProgressProperties.ReadinessIsMonotone` | app/src/main/java/com/vin/covidmapservice/presentation/MainViewModel.kt:101-131 | readiness, once read, is never lost, and it is read once it has arrived |
| `ProgressProperties.DoneIsLastAndUnique` | app/src/main/java/com/vin/covidmapservice/presentation/MainViewModel.kt:148-180 | a done emission is always the last one and is `(1, true)`; a run has ended iff it emitted done or started ended, and an ended loop emits nothing more |
| `ProgressProperties.ProgressRises` | app/src/main/java/com/vin/covidmapservice/presentation/MainViewModel.kt:148-177 | every emission is at least the one before, except the pinned `(0.8, false)` of a wait; once data is ready, there is no exception |
| `ProgressProperties.NoWaitOnceReady` | app/src/main/java/com/vin/covidmapservice/presentation/MainViewModel.kt:153-170 | with data ready, the loop never waits, and the budget and the time reference never change |
| `ProgressProperties.PinnedUntilReady` | app/src/main/java/com/vin/covidmapservice/presentation/MainViewModel.kt:153-161 | while no data arrives, a loop at or past 0.8 emits `(0.8, false)` at every step and never ends, even if progress had reached 1 |
| `ProgressProperties.FinishesOnceBudgetIsSpent` | app/src/main/java/com/vin/covidmapservice/presentation/MainViewModel.kt:164-180 | with data ready and less than 20 ms of the budget left, the loop reaches 1 in one step and emits just `(1, true)` in the next |
| `ProgressProperties.ProgressCanFallBack` | app/src/main/java/com/vin/covidmapservice/presentation/MainViewModel.kt:148-161 | a run with late data emits `(0, false)`, `(1, false)`, then `(0.8, false)`: the shown progress can fall |
| `Cache.GetDBCount` | app/src/main/java/com/vin/covidmapservice/presentation/MainViewModel.kt:51-53 | the count is the number of stored rows, repeated rows counted each time; it is zero exactly for an empty store |
| `Cache.CacheIsWarm` | app/src/main/java/com/vin/covidmapservice/SplashScreen.kt:37 | a count below 100 means the store is refreshed from the API; a count of at least 100 means it is not; an empty store is never warm |
| `Cache.UniqueKeysAppendOne` | app/src/main/java/com/vin/covidmapservice/domain/Center.kt:13-14 | on a table whose keys are unique, adding a row keeps them unique iff its key is 0 or not already stored |
| `Cache.ClearCacheDB` | app/src/main/java/com/vin/covidmapservice/presentation/MainViewModel.kt:54-61 | accepted iff the store is not in use; a refusal changes nothing; an accepted clear empties the store, leaves the flag free and keeps the displayed list |
| `Cache.ConvertPage` | app/src/main/java/com/vin/covidmapservice/presentation/MainViewModel.kt:116-118 | a page converts iff every record converts; the rows are then the records' conversions, in order, each coloured by its type |
| `Cache.ConvertPageFailsAtFirstBadRecord` | app/src/main/java/com/vin/covidmapservice/presentation/MainViewModel.kt:116-118 | the failure of a page is that of its first record that does not convert |
| `Cache.InsertRecord` | app/src/main/java/com/vin/covidmapservice/data/CenterCacheDAO.kt:17-18 | inserting one record fails with its parse error when its coordinates do not parse. It aborts with a constraint failure on the row's key when that key is already stored. On a table with unique keys it succeeds iff the record converts and the keys stay unique, and then it appends exactly the converted row |
| `Cache.InsertPage` | app/src/main/java/com/vin/covidmapservice/presentation/MainViewModel.kt:116-118 | inserting a page's records in order appends exactly the page's converted rows. On a table with unique keys it succeeds iff every record converts and the keys stay unique. A failure is the parse error of one of the page's records or a constraint failure on one of their keys |
| `Cache.Deliver` | app/src/main/java/com/vin/covidmapservice/presentation/MainViewModel.kt:112-123 | handling a page that arrived inserts its records; a failed page leaves the store as it was; a null body is its failure. On a table with unique keys, handling succeeds iff it did not throw, the records convert and the keys stay unique, and it then appends exactly the page's rows. A page that converts but fails did so on one of its rows' keys. Rows stay coloured by type |
| `Cache.DeliverAllAppends` | app/src/main/java/com/vin/covidmapservice/presentation/MainViewModel.kt:111-125 | on a table with unique keys, a batch of page answers is handled iff each one can be and the keys of the store with all their rows stay unique; a successful batch appends the rows of the pages that arrived, in arrival order |
| `Cache.ArrivalOrderIrrelevant` | app/src/main/java/com/vin/covidmapservice/presentation/MainViewModel.kt:111-125 | on a table with unique keys, whether a batch of page answers can be handled, and the rows the store gains as a multiset, do not depend on the order in which pages answer |
| `Cache.DeliverAllColored` | app/src/main/java/com/vin/covidmapservice/presentation/MainViewModel.kt:112-118 | handling page answers keeps every stored row coloured by its center type |
| `Cache.RefreshReplacesStore` | app/src/main/java/com/vin/covidmapservice/presentation/MainViewModel.kt:103-125 | a refresh that does not skip the API, started when no earlier pages are still pending, begins with an empty store and the dispatched pages pending. Once their answers are handled, in any order, the handling succeeds iff every answer can be handled and no two of their rows share a nonzero key. The store then holds exactly the converted records of the pages that arrived, as a multiset, each coloured by its type |
| `Cache.StoredPositionRoundTrip` | app/src/main/java/com/vin/covidmapservice/data/CenterCacheDBAbstract.kt:27-34 | a converted record's position is stored as `<lat>;<lng>` from its own texts and read back unchanged |
| `Cache.ApiShapedRecordConverts` | app/src/main/java/com/vin/covidmapservice/domain/Center.kt:39-49 | a record whose coordinates are digits, a point and digits always converts, and its position reads back unchanged from the store |
| `Cache.Clear` | app/src/main/java/com/vin/covidmapservice/presentation/MainViewModel.kt:54-61 | a clear during a refresh changes nothing; otherwise it empties the store, keeps the displayed list, leaves the flag free and leaves the loop and pending pages alone; the application invariant is kept |
| `Cache.UpdateAPICache` | app/src/main/java/com/vin/covidmapservice/presentation/MainViewModel.kt:184-199 | accepted iff not in use; a refusal changes nothing. When accepted, the flag is set and the loop starts with readiness equal to `skipAPICall`. When skipping, the store, the displayed list and the pending pages are kept. Otherwise the store and the displayed list are emptied before the dispatched pages become pending. The application invariant is kept |
| `Cache.Collect` | app/src/main/java/com/vin/covidmapservice/presentation/MainViewModel.kt:190-196 | with a loop running, the collected emission is the one the loop's step makes, and the loop moves to that step's next state unless the emission is done. The flag is released exactly when the collected emission is done, which is `(1, true)`, and the loop is then gone. Without a loop nothing happens. The store and pending pages are untouched, and the invariant is kept |
| `Cache.Arrive` | app/src/main/java/com/vin/covidmapservice/presentation/MainViewModel.kt:112-123 | on a table with unique keys, handling one pending page succeeds iff it can be handled and the keys stay unique; the store then gains exactly that page's rows, the page leaves the pending ones, and the flag and loop are unchanged; the invariant (which includes unique keys) is kept |
| `Cache.SplashStart` | app/src/main/java/com/vin/covidmapservice/SplashScreen.kt:30-60 | a store of at least 100 rows is kept with the displayed list, no page is requested and the loop starts ready. Otherwise the store is emptied and pages 1..10 are requested. The earlier pending pages are kept, and the routed answers for pages 1..10 follow them in order. The loop starts not ready. A refusal changes nothing and requests no page |

## Left out

- The Compose UI, navigation, Hilt injection, the Room DAO and the logging. The store is a sequence of rows.
- `beginCollectingCachedCenter`, `dumpDB` and `updateCurrentLocation`: they only copy or print the store or read the location service.
- Coroutines, `delay` and wall-clock reads. The loop's environment supplies the readiness and clock readings, and an application run is any order of collect, arrive, clear and refresh events.
- The unsynchronised check-then-set of `isDBInUse` between threads: each gate call is atomic.
- Readiness is set in the source once all pages are dispatched, which may be before their inserts finish. The model lets readiness arrive at any step, so it claims nothing like "the store is full when ready".
- Floating point. Progress is a real number and `0.8f` is exactly 0.8, so there are no rounding claims.
- Geometry.ToDouble: accepts only plain decimal text with an optional sign and exponent. Kotlin's `NaN`, `Infinity`, hexadecimal, `f`/`d` suffix and surrounding-whitespace forms are refused. Two texts of one number, such as `1.0` and `1.00`, stay distinct.
- Geometry.ToText: gives back the number's own text instead of Kotlin's canonical `Double.toString`, so the codec's round trip is exact on texts.
- Cache.Deliver: a record that does not parse, or whose key is already stored, ends handling of its page with the failure, and the rows inserted before it are not kept. In the source that exception is uncaught in its coroutine and ends the process.
- The inserts of one page are not interleaved with those of another: each page is inserted whole when its answer arrives. `Cache.ArrivalOrderIrrelevant` covers every order of whole pages.
- Cache.InsertRecord: a row with key 0 keeps key 0 instead of getting a key chosen by the database. Such rows never clash, and the model does not track the chosen key, which a later row could collide with.
- Domain.ConversionIgnoresRegionFields: the converse names only the seven copied fields. The coordinate texts are read as numbers, and in the program two texts can give the same number.
- The root-package copies of `Center`, `CenterAPI` and `MainViewModel`: the files in `presentation/`, `domain/` and `data/` supersede them.

=== FILE: base.dfy ===
/** Small shared vocabulary: optional values, results with an error, Kotlin's
    32-bit `Int`, a search helper for the string code, and list helpers for
    the page handling: `FlatMap`, `MapResult` and `FoldSteps`. */
module Base {

  datatype Option<+T> = None | Some(value: T)

  /** A computation that either yields a value or fails with an error; used for
      the places where the application throws (a failed `toDouble`, a list index
      past the end, a `!!` on a null body). */
  datatype Result<+T, +E> = Ok(value: T) | Err(error: E)

  /** The exceptions the modelled code can throw. */
  datatype Failure =
    | NumberFormat(text: string)     // `String.toDouble` on text that is not a number
    | IndexOutOfBounds(index: int)   // a list read past its end
    | NullPointer                    // `!!` applied to null
    | Constraint(key: int)           // an insert whose primary key is already stored

  /** Kotlin/JVM `Int`. */
  newtype Int32 = x: int | -0x8000_0000 <= x < 0x8000_0000

  function Max(a: int, b: int): (m: int)
    ensures m >= a && m >= b
    ensures m == a || m == b
  {
    if a >= b then a else b
  }

  /** Position of the first occurrence of `c` in `s`, if any. */
  function IndexOf(s: string, c: char): (r: Option<nat>)
    ensures r.None? <==> c !in s
    ensures r.Some? ==> r.value < |s| && s[r.value] == c && c !in s[..r.value]
  {
    if |s| == 0 then None
    else if s[0] == c then Some(0)
    else match IndexOf(s[1..], c)
      case None => None
      case Some(k) =>
        assert s[1..][..k] == s[1..k + 1];
        assert s[..k + 1] == [s[0]] + s[1..k + 1];
        Some(k + 1)
  }

  /** The first `c` in `a + [c] + b` is the one right after `a` when `a` has none. */
  lemma {:induction false} IndexOfAfter(a: string, c: char, b: string)
    requires c !in a
    ensures IndexOf(a + [c] + b, c) == Some(|a|)
  {
    if |a| > 0 {
      IndexOfAfter(a[1..], c, b);
      assert (a + [c] + b)[1..] == a[1..] + [c] + b;
    }
  }

  /** The pieces `f` gives for each element, concatenated in order. */
  function FlatMap<T, U>(xs: seq<T>, f: T -> seq<U>): seq<U>
    decreases |xs|
  {
    if |xs| == 0 then [] else f(xs[0]) + FlatMap(xs[1..], f)
  }

  lemma {:induction false} FlatMapAppend<T, U>(a: seq<T>, b: seq<T>, f: T -> seq<U>)
    ensures FlatMap(a + b, f) == FlatMap(a, f) + FlatMap(b, f)
    decreases |a|
  {
    if |a| == 0 {
      assert a + b == b;
    } else {
      assert (a + b)[1..] == a[1..] + b;
      FlatMapAppend(a[1..], b, f);
    }
  }

  /** Taking one element out of a sequence takes its piece out of the
      concatenation, as a multiset. */
  lemma FlatMapRemove<T, U>(ys: seq<T>, k: nat, f: T -> seq<U>)
    requires k < |ys|
    ensures multiset(FlatMap(ys, f)) == multiset(f(ys[k])) + multiset(FlatMap(ys[..k] + ys[k + 1..], f))
  {
    var a, x, b := ys[..k], ys[k], ys[k + 1..];
    assert ys == (a + [x]) + b;
    FlatMapAppend(a + [x], b, f);
    FlatMapAppend(a, [x], f);
    FlatMapAppend(a, b, f);
    assert FlatMap([x], f) == f(x) by { assert [x][1..] == []; }
    var fa, fb := FlatMap(a, f), FlatMap(b, f);
    assert FlatMap(ys, f) == (fa + f(x)) + fb;
    assert multiset(FlatMap(ys, f)) == multiset(fa + f(x)) + multiset(fb);
    assert multiset(fa + f(x)) == multiset(fa) + multiset(f(x));
    assert multiset(FlatMap(a + b, f)) == multiset(fa) + multiset(fb);
  }

  /** Two permutations of each other stay so once a matching element is taken
      out of each. */
  lemma RemoveMatching<T>(xs: seq<T>, ys: seq<T>, k: nat)
    requires multiset(xs) == multiset(ys) && |xs| > 0 && k < |ys| && ys[k] == xs[0]
    ensures multiset(xs[1..]) == multiset(ys[..k] + ys[k + 1..])
  {
    var x, a, b := xs[0], ys[..k], ys[k + 1..];
    assert ys == (a + [x]) + b;
    assert xs == [x] + xs[1..];
    var ma, mb, mx := multiset(a), multiset(b), multiset{x};
    assert multiset(ys) == multiset(a + [x]) + mb;
    assert multiset(a + [x]) == ma + mx;
    assert multiset(xs) == mx + multiset(xs[1..]);
    assert multiset(a + b) == ma + mb;
    var rest, kept := multiset(xs[1..]), ma + mb;
    assert mx + rest == mx + kept;
    forall z ensures rest[z] == kept[z] {
      assert (mx + rest)[z] == (mx + kept)[z];
    }
    assert rest == kept;
  }

  /** Reordering the elements only reorders the concatenated pieces. */
  lemma {:induction false} FlatMapPermutation<T, U>(xs: seq<T>, ys: seq<T>, f: T -> seq<U>)
    requires multiset(xs) == multiset(ys)
    ensures multiset(FlatMap(xs, f)) == multiset(FlatMap(ys, f))
    decreases |xs|
  {
    if |xs| == 0 {
      assert |ys| == |multiset(ys)| == 0;
    } else {
      var x := xs[0];
      assert x in multiset(ys) by { assert x in multiset(xs); }
      var k :| 0 <= k < |ys| && ys[k] == x;
      RemoveMatching(xs, ys, k);
      FlatMapPermutation(xs[1..], ys[..k] + ys[k + 1..], f);
      FlatMapRemove(ys, k, f);
    }
  }

  /** Steps that may fail, applied in order from `s`; the first failure stops them. */
  function FoldSteps<S, T, E>(s: S, xs: seq<T>, step: (S, T) -> Result<S, E>): Result<S, E>
    decreases |xs|
  {
    if |xs| == 0 then Ok(s)
    else
      match step(s, xs[0])
      case Err(e) => Err(e)
      case Ok(next) => FoldSteps(next, xs[1..], step)
  }

  /** Steps that succeed only on elements `ok` admits, appending `rows` of
      them: when all succeed, every element was admitted and all the rows are
      appended in order. */
  lemma {:induction false} FoldStepsAppend<T, U, E>(
    s: seq<U>, xs: seq<T>, step: (seq<U>, T) -> Result<seq<U>, E>, ok: T -> bool, rows: T -> seq<U>)
    requires forall t, x :: step(t, x).Ok? ==> ok(x) && step(t, x).value == t + rows(x)
    ensures FoldSteps(s, xs, step).Ok? ==> forall i | 0 <= i < |xs| :: ok(xs[i])
    ensures FoldSteps(s, xs, step).Ok? ==> FoldSteps(s, xs, step).value == s + FlatMap(xs, rows)
    decreases |xs|
  {
    if |xs| > 0 && step(s, xs[0]).Ok? {
      assert forall i | 0 < i < |xs| :: xs[i] == xs[1..][i - 1];
      var next := step(s, xs[0]).value;
      FoldStepsAppend(next, xs[1..], step, ok, rows);
      assert s + rows(xs[0]) + FlatMap(xs[1..], rows) == s + (rows(xs[0]) + FlatMap(xs[1..], rows));
    }
  }

  /** Steps that, from a `good` state, succeed exactly on the elements `ok`
      admits whose `rows` keep the state good: from a good state they succeed
      together exactly when every element is admitted and the state with all
      the rows appended is good. `good` must survive dropping a suffix. */
  lemma {:induction false} FoldStepsGuarded<T, U, E>(
    s: seq<U>, xs: seq<T>, step: (seq<U>, T) -> Result<seq<U>, E>,
    ok: T -> bool, rows: T -> seq<U>, good: seq<U> -> bool)
    requires forall t, x :: good(t) ==> (step(t, x).Ok? <==> ok(x) && good(t + rows(x)))
    requires forall t, x :: step(t, x).Ok? ==> step(t, x).value == t + rows(x)
    requires forall a: seq<U>, b: seq<U> :: good(a + b) ==> good(a)
    requires good(s)
    ensures FoldSteps(s, xs, step).Ok? <==>
      (forall i | 0 <= i < |xs| :: ok(xs[i])) && good(s + FlatMap(xs, rows))
    decreases |xs|
  {
    if |xs| > 0 {
      var x, rest := xs[0], xs[1..];
      assert forall i | 0 < i < |xs| :: xs[i] == rest[i - 1];
      assert s + FlatMap(xs, rows) == (s + rows(x)) + FlatMap(rest, rows);
      if step(s, x).Ok? {
        FoldStepsGuarded(s + rows(x), rest, step, ok, rows, good);
      } else if ok(x) && good(s + FlatMap(xs, rows)) {
        GoodPrefix(good, s + rows(x), FlatMap(rest, rows));
      }
    } else {
      assert s + FlatMap(xs, rows) == s;
    }
  }

  /** A property that survives dropping a suffix holds of every prefix. */
  lemma GoodPrefix<U>(good: seq<U> -> bool, a: seq<U>, b: seq<U>)
    requires forall a: seq<U>, b: seq<U> :: good(a + b) ==> good(a)
    requires good(a + b)
    ensures good(a)
  {
  }

  /** A failed run of steps failed in one of its steps. */
  lemma {:induction false} FoldStepsFailure<S, T, E>(s: S, xs: seq<T>, step: (S, T) -> Result<S, E>)
    requires FoldSteps(s, xs, step).Err?
    ensures exists i, t | 0 <= i < |xs| :: step(t, xs[i]) == Err(FoldSteps(s, xs, step).error)
    decreases |xs|
  {
    if step(s, xs[0]).Ok? {
      var next := step(s, xs[0]).value;
      FoldStepsFailure(next, xs[1..], step);
      var i, t :| 0 <= i < |xs[1..]| && step(t, xs[1..][i]) == Err(FoldSteps(next, xs[1..], step).error);
      assert xs[1..][i] == xs[i + 1];
    }
  }

  /** Mapping with `f` and keeping the successes as one-element pieces gives
      the same list as a map that did not fail. */
  lemma {:induction false} MapResultFlat<T, U, E>(xs: seq<T>, f: T -> Result<U, E>, g: T -> seq<U>)
    requires forall x :: g(x) == (if f(x).Ok? then [f(x).value] else [])
    requires MapResult(xs, f).Ok?
    ensures FlatMap(xs, g) == MapResult(xs, f).value
    decreases |xs|
  {
    if |xs| > 0 {
      MapResultFlat(xs[1..], f, g);
    }
  }

  /** `f` applied to every element in order, stopping at the first failure. */
  function MapResult<T, U, E>(xs: seq<T>, f: T -> Result<U, E>): (r: Result<seq<U>, E>)
    ensures r.Ok? <==> forall i | 0 <= i < |xs| :: f(xs[i]).Ok?
    ensures r.Ok? ==> |r.value| == |xs| && forall i | 0 <= i < |xs| :: r.value[i] == f(xs[i]).value
    decreases |xs|
  {
    if |xs| == 0 then Ok([])
    else
      match f(xs[0])
      case Err(e) => Err(e)
      case Ok(y) =>
        match MapResult(xs[1..], f)
        case Err(e) =>
          assert exists j | 1 <= j < |xs| :: f(xs[j]).Err? by {
            var j :| 0 <= j < |xs[1..]| && f(xs[1..][j]).Err?;
            assert xs[1..][j] == xs[j + 1];
          }
          Err(e)
        case Ok(ys) =>
          assert forall i | 0 < i < |xs| :: xs[i] == xs[1..][i - 1];
          Ok([y] + ys)
  }

  /** The failure of a map is that of the first element `f` fails on. */
  lemma {:induction false} MapResultFailsAtFirst<T, U, E>(xs: seq<T>, f: T -> Result<U, E>)
    requires MapResult(xs, f).Err?
    ensures exists i | 0 <= i < |xs| ::
      && f(xs[i]) == Err(MapResult(xs, f).error)
      && forall j | 0 <= j < i :: f(xs[j]).Ok?
    decreases |xs|
  {
    if f(xs[0]).Ok? {
      MapResultFailsAtFirst(xs[1..], f);
      var i :| 0 <= i < |xs[1..]| && f(xs[1..][i]) == Err(MapResult(xs[1..], f).error)
        && forall j | 0 <= j < i :: f(xs[1..][j]).Ok?;
      assert f(xs[i + 1]) == Err(MapResult(xs, f).error);
      forall j | 0 < j < i + 1 ensures f(xs[j]).Ok? {
        assert xs[j] == xs[1..][j - 1];
      }
    }
  }
}

=== FILE: cache.dfy ===
/** The cache side of `MainViewModel`: the store of centers, the in-use flag
    that keeps a clear and a refresh from overlapping, the refresh that empties
    the store and fills it from the API, and the splash screen's decision
    whether to refresh at all.

    The database is a sequence of rows. A refresh is started by the gate
    (`UpdateAPICache`); after that the application evolves through three kinds
    of events, in any order the environment picks: a step of the progress loop
    whose emission is collected (`Collect`), the arrival of one page's answer
    (`Arrive`), and further clear or refresh attempts. */
module Cache {
  import opened Base
  import opened Geometry
  import opened PositionCodec
  import opened CenterApi
  import opened Domain
  import Progress

  /** Below this many rows the splash screen refreshes the cache. */
  const WarmCacheRows := 100

  /** The store, the displayed list and the in-use flag. */
  datatype ViewModel = ViewModel(store: seq<Center>, cached: seq<Center>, inUse: bool)

  /** The answer to a clear or refresh attempt. */
  datatype Attempt = Attempt(vm: ViewModel, accepted: bool)

  /** `getDBCount`: the number of rows, counting repeated rows as often as
      they occur; zero exactly for an empty store. */
  function GetDBCount(vm: ViewModel): (n: nat)
    ensures n == |multiset(vm.store)|
    ensures n == 0 <==> vm.store == []
  {
    |vm.store|
  }

  /** The table's primary key: no two stored rows share a key, except the key
      0, which the database treats as "choose one for me". Stated on the
      multiset of rows, so it does not depend on their order. */
  predicate UniqueKeys(rows: seq<Center>) {
    forall c, d | c in multiset(rows) && d in multiset(rows) && c.id == d.id && c.id != 0 ::
      c == d && multiset(rows)[c] == 1
  }

  /** Whether some stored row has key `id`. */
  predicate KeyStored(rows: seq<Center>, id: Int32) {
    exists i | 0 <= i < |rows| :: rows[i].id == id
  }

  /** Adding a row keeps the keys unique exactly when its key is 0 or not yet
      stored. */
  lemma UniqueKeysAppendOne(rows: seq<Center>, c: Center)
    ensures UniqueKeys(rows) ==> (UniqueKeys(rows + [c]) <==> c.id == 0 || !KeyStored(rows, c.id))
  {
    var m := multiset(rows + [c]);
    assert m == multiset(rows) + multiset{c};
    if UniqueKeys(rows) && c.id != 0 && KeyStored(rows, c.id) {
      var i :| 0 <= i < |rows| && rows[i].id == c.id;
      assert rows[i] in multiset(rows);
      if rows[i] == c {
        assert m[c] >= 2;
      }
    }
  }

  /** Whether keys are unique does not depend on the order of the rows. */
  lemma UniqueKeysPermutation(a: seq<Center>, b: seq<Center>)
    requires multiset(a) == multiset(b)
    ensures UniqueKeys(a) <==> UniqueKeys(b)
  {
  }

  /** Dropping rows from the end keeps the keys unique. */
  lemma UniqueKeysPrefix(a: seq<Center>, b: seq<Center>)
    requires UniqueKeys(a + b)
    ensures UniqueKeys(a)
  {
    assert multiset(a + b) == multiset(a) + multiset(b);
  }

  /** Every row carries the marker colour its center type calls for. */
  predicate RowsColored(rows: seq<Center>) {
    forall i | 0 <= i < |rows| :: ColorMatchesType(rows[i])
  }

  /** `clearCacheDB`: refused, changing nothing, while the store is in use;
      otherwise the store is emptied, the flag is free again afterwards and
      nothing else changes. */
  function ClearCacheDB(vm: ViewModel): (r: Attempt)
    ensures r.accepted <==> !vm.inUse
    ensures !r.accepted ==> r.vm == vm
    ensures r.accepted ==> GetDBCount(r.vm) == 0 && !r.vm.inUse && r.vm.cached == vm.cached
  {
    if vm.inUse then Attempt(vm, false)
    else Attempt(vm.(store := []), true)
  }

  // ---------------------------------------------------------------------
  // Converting and inserting a page

  /** All records of a page converted, in order, or a failure. */
  function ConvertPage(data: seq<CenterModel>): (r: Result<seq<Center>, Failure>)
    ensures r.Ok? <==> forall i | 0 <= i < |data| :: CenterModelToCenter(data[i]).Ok?
    ensures r.Ok? ==> (|r.value| == |data|
      && forall i | 0 <= i < |data| :: r.value[i] == CenterModelToCenter(data[i]).value)
    ensures r.Ok? ==> RowsColored(r.value)
  {
    MapResult(data, CenterModelToCenter)
  }

  /** The failure reported for a page is that of its first record whose
      coordinates do not parse; every record before it converts. */
  lemma ConvertPageFailsAtFirstBadRecord(data: seq<CenterModel>)
    requires ConvertPage(data).Err?
    ensures exists i | 0 <= i < |data| ::
      && CenterModelToCenter(data[i]) == Err(ConvertPage(data).error)
      && forall j | 0 <= j < i :: CenterModelToCenter(data[j]).Ok?
  {
    MapResultFailsAtFirst(data, CenterModelToCenter);
  }

  /** The row one record becomes: none when its coordinates do not parse. */
  function RecordRows(m: CenterModel): seq<Center> {
    if CenterModelToCenter(m).Ok? then [CenterModelToCenter(m).value] else []
  }

  /** `cacheDB.insert(centerModelToCenter(res))` for one record: the
      conversion throws when the coordinates do not parse, and the insert
      aborts when the row's key is already stored (key 0 asks the database
      for a fresh key and never clashes). */
  function InsertRecord(store: seq<Center>, m: CenterModel): (r: Result<seq<Center>, Failure>)
    ensures CenterModelToCenter(m).Err? ==> r == Err(CenterModelToCenter(m).error)
    ensures r.Ok? ==> r.value == store + RecordRows(m)
    ensures UniqueKeys(store) ==>
      (r.Ok? <==> CenterModelToCenter(m).Ok? && UniqueKeys(store + RecordRows(m)))
    ensures CenterModelToCenter(m).Ok? && r.Err? ==>
      r.error == Constraint(CenterModelToCenter(m).value.id as int)
  {
    match CenterModelToCenter(m)
    case Err(f) => Err(f)
    case Ok(c) =>
      UniqueKeysAppendOne(store, c);
      if c.id != 0 && KeyStored(store, c.id) then Err(Constraint(c.id as int))
      else Ok(store + [c])
  }

  /** The records of a page inserted one by one, in order. */
  function InsertPage(store: seq<Center>, data: seq<CenterModel>): (r: Result<seq<Center>, Failure>)
    ensures r.Ok? ==> ConvertPage(data).Ok? && r.value == store + ConvertPage(data).value
    ensures UniqueKeys(store) ==>
      (r.Ok? <==> ConvertPage(data).Ok? && UniqueKeys(store + ConvertPage(data).value))
    ensures r.Err? ==> exists i | 0 <= i < |data| ::
      || CenterModelToCenter(data[i]) == Err(r.error)
      || (CenterModelToCenter(data[i]).Ok? && r.error == Constraint(CenterModelToCenter(data[i]).value.id as int))
  {
    InsertPageFacts(store, data);
    FoldSteps(store, data, InsertRecord)
  }

  /** The proof of `InsertPage`'s contract, from the facts about runs of
      steps. */
  lemma InsertPageFacts(store: seq<Center>, data: seq<CenterModel>)
    ensures var r := FoldSteps(store, data, InsertRecord);
      && (r.Ok? ==> ConvertPage(data).Ok? && r.value == store + ConvertPage(data).value)
      && (UniqueKeys(store) ==>
            (r.Ok? <==> ConvertPage(data).Ok? && UniqueKeys(store + ConvertPage(data).value)))
      && (r.Err? ==> exists i | 0 <= i < |data| ::
            || CenterModelToCenter(data[i]) == Err(r.error)
            || (CenterModelToCenter(data[i]).Ok?
                && r.error == Constraint(CenterModelToCenter(data[i]).value.id as int)))
  {
    var ok := (m: CenterModel) => CenterModelToCenter(m).Ok?;
    var r := FoldSteps(store, data, InsertRecord);
    FoldStepsAppend(store, data, InsertRecord, ok, RecordRows);
    forall a: seq<Center>, b: seq<Center> | UniqueKeys(a + b) ensures UniqueKeys(a) {
      UniqueKeysPrefix(a, b);
    }
    if UniqueKeys(store) {
      FoldStepsGuarded(store, data, InsertRecord, ok, RecordRows, UniqueKeys);
    }
    if forall i | 0 <= i < |data| :: ok(data[i]) {
      assert ConvertPage(data).Ok?;
      MapResultFlat(data, CenterModelToCenter, RecordRows);
    }
    if r.Err? {
      FoldStepsFailure(store, data, InsertRecord);
    }
  }

  /** Whether one delivery can be handled without an exception. */
  predicate Deliverable(d: Delivery) {
    && !d.Threw?
    && (d.PageDone? ==> ConvertPage(d.data).Ok?)
  }

  /** The rows a delivery adds: the converted records of a page that arrived,
      nothing for a page that failed (or for one that throws). */
  function RowsOf(d: Delivery): seq<Center>
  {
    if d.PageDone? && ConvertPage(d.data).Ok? then ConvertPage(d.data).value else []
  }

  /** The rows of a sequence of deliveries, in order. */
  function AllRows(ds: seq<Delivery>): seq<Center> {
    FlatMap(ds, RowsOf)
  }

  /** The page-done handler: inserts every record of the page, converted; a
      record whose coordinates do not parse throws, and so does one whose key
      is already stored. A failed page is only logged, and a null body has
      already thrown. */
  function Deliver(store: seq<Center>, d: Delivery): (r: Result<seq<Center>, Failure>)
    ensures r.Ok? ==> Deliverable(d) && r.value == store + RowsOf(d)
    ensures UniqueKeys(store) ==> (r.Ok? <==> Deliverable(d) && UniqueKeys(store + RowsOf(d)))
    ensures d.PageFailed? ==> r == Ok(store)
    ensures d.Threw? ==> r == Err(d.failure)
    ensures d.PageDone? && r.Err? && ConvertPage(d.data).Ok? ==>
      exists i | 0 <= i < |d.data| :: r.error == Constraint(ConvertPage(d.data).value[i].id as int)
    ensures RowsColored(store) && r.Ok? ==> RowsColored(r.value)
  {
    match d
    case PageFailed(_, _) => Ok(store)
    case Threw(_, f) => Err(f)
    case PageDone(_, data) => InsertPage(store, data)
  }

  /** Deliveries handled one after another, in arrival order. */
  function DeliverAll(store: seq<Center>, ds: seq<Delivery>): Result<seq<Center>, Failure> {
    FoldSteps(store, ds, Deliver)
  }

  /** Handling a batch of deliveries appends the rows of the pages that
      arrived, failed pages adding nothing. On a store with unique keys it
      succeeds exactly when each delivery can be handled and the keys stay
      unique. */
  lemma DeliverAllAppends(store: seq<Center>, ds: seq<Delivery>)
    ensures DeliverAll(store, ds).Ok? ==>
      && (forall i | 0 <= i < |ds| :: Deliverable(ds[i]))
      && DeliverAll(store, ds).value == store + AllRows(ds)
    ensures UniqueKeys(store) ==>
      (DeliverAll(store, ds).Ok? <==>
        (forall i | 0 <= i < |ds| :: Deliverable(ds[i])) && UniqueKeys(store + AllRows(ds)))
  {
    FoldStepsAppend(store, ds, Deliver, Deliverable, RowsOf);
    forall a: seq<Center>, b: seq<Center> | UniqueKeys(a + b) ensures UniqueKeys(a) {
      UniqueKeysPrefix(a, b);
    }
    if UniqueKeys(store) {
      FoldStepsGuarded(store, ds, Deliver, Deliverable, RowsOf, UniqueKeys);
    }
  }

  /** Pages may be answered in any order: the rows the store gains depend only
      on which deliveries arrived, not on their order. */
  lemma ArrivalOrderIrrelevant(store: seq<Center>, ds: seq<Delivery>, es: seq<Delivery>)
    requires UniqueKeys(store)
    requires multiset(ds) == multiset(es)
    requires DeliverAll(store, ds).Ok?
    ensures DeliverAll(store, es).Ok?
    ensures multiset(DeliverAll(store, ds).value) == multiset(DeliverAll(store, es).value)
  {
    DeliverAllAppends(store, ds);
    DeliverAllAppends(store, es);
    forall i | 0 <= i < |es| ensures Deliverable(es[i]) {
      assert es[i] in multiset(ds) by { assert es[i] in multiset(es); }
    }
    FlatMapPermutation(ds, es, RowsOf);
    assert multiset(store + AllRows(ds)) == multiset(store + AllRows(es));
  }

  /** The position of a converted record survives the store: it is written as
      the record's own "<lat>;<lng>" text and read back unchanged. */
  lemma StoredPositionRoundTrip(m: CenterModel)
    requires CenterModelToCenter(m).Ok?
    ensures LatLngToStringPos(CenterModelToCenter(m).value.pos) == m.lat + [Separator] + m.lng
    ensures FromStringPos(m.lat + [Separator] + m.lng) == Ok(CenterModelToCenter(m).value.pos)
  {
  }

  /** A record whose coordinates have the shape the API sends, digits, a
      point and digits, always converts, and its position survives the store. */
  lemma ApiShapedRecordConverts(m: CenterModel, latInt: string, latFrac: string, lngInt: string, lngFrac: string)
    requires |latInt| > 0 && AllDigits(latInt) && AllDigits(latFrac)
    requires |lngInt| > 0 && AllDigits(lngInt) && AllDigits(lngFrac)
    requires m.lat == latInt + "." + latFrac && m.lng == lngInt + "." + lngFrac
    ensures CenterModelToCenter(m).Ok?
    ensures FromStringPos(LatLngToStringPos(CenterModelToCenter(m).value.pos)) == Ok(CenterModelToCenter(m).value.pos)
  {
    PointedDigitsAreNumeric(latInt, latFrac);
    PointedDigitsAreNumeric(lngInt, lngFrac);
    StoredPositionRoundTrip(m);
  }

  // ---------------------------------------------------------------------
  // The application: gate, progress loop and page arrivals

  /** The view model, the running progress loop (if a refresh is running) and
      the page answers dispatched but not yet handled. */
  datatype App = App(vm: ViewModel, loop: Option<Progress.Loop>, pending: seq<Delivery>)

  /** The flag is set exactly while a progress loop runs; that loop is sound
      and not yet past its end; every row has the colour of its type; no two
      rows share a key. */
  predicate AppInv(app: App) {
    && (app.vm.inUse <==> app.loop.Some?)
    && (app.loop.Some? ==> Progress.Inv(app.loop.value) && app.loop.value.pc != Progress.Finished)
    && RowsColored(app.vm.store)
    && UniqueKeys(app.vm.store)
  }

  /** A clear attempt on the running application. */
  function Clear(app: App): (r: App)
    ensures AppInv(app) ==> AppInv(r)
    ensures app.vm.inUse ==> r == app
    ensures !app.vm.inUse ==>
      && r.vm.store == [] && r.vm.cached == app.vm.cached && !r.vm.inUse
      && r.loop == app.loop && r.pending == app.pending
  {
    app.(vm := ClearCacheDB(app.vm).vm)
  }

  /** `updateAPICache` with `skipAPICall`, given the page answers the dispatch
      produced: refused, changing nothing, while the store is in use. Otherwise
      the flag is set and the progress loop starts; unless told to skip, the
      store and the displayed list are emptied first and the dispatched pages
      become pending. When skipping, data is ready from the start, nothing is
      cleared and nothing is dispatched. */
  function UpdateAPICache(app: App, skipAPICall: bool, dispatched: seq<Delivery>, clock: int)
    : (r: (App, bool))
    ensures r.1 <==> !app.vm.inUse
    ensures !r.1 ==> r.0 == app
    ensures r.1 ==> r.0.vm.inUse && r.0.loop == Some(Progress.Start(skipAPICall, clock))
    ensures r.1 && skipAPICall ==>
      r.0.vm.store == app.vm.store && r.0.vm.cached == app.vm.cached && r.0.pending == app.pending
    ensures r.1 && !skipAPICall ==>
      r.0.vm.store == [] && r.0.vm.cached == [] && r.0.pending == app.pending + dispatched
    ensures AppInv(app) ==> AppInv(r.0)
  {
    if app.vm.inUse then (app, false)
    else
      var loop := Progress.Start(skipAPICall, clock);
      if skipAPICall then
        (App(app.vm.(inUse := true), Some(loop), app.pending), true)
      else
        (App(ViewModel([], [], true), Some(loop), app.pending + dispatched), true)
  }

  /** A refresh that does not skip the API forgets the old rows: once the
      answers of the dispatched pages are all handled, in any order, the store
      holds exactly the converted records of the pages that arrived, each
      coloured by its type, or the handling failed. */
  lemma RefreshReplacesStore(app: App, ds: seq<Delivery>, order: seq<Delivery>, clock: int)
    requires !app.vm.inUse && app.pending == [] && multiset(order) == multiset(ds)
    ensures var r := UpdateAPICache(app, false, ds, clock).0;
      && r.pending == ds
      && (DeliverAll(r.vm.store, order).Ok? <==>
            (forall i | 0 <= i < |ds| :: Deliverable(ds[i])) && UniqueKeys(AllRows(ds)))
      && (DeliverAll(r.vm.store, order).Ok? ==>
            multiset(DeliverAll(r.vm.store, order).value) == multiset(AllRows(ds))
            && RowsColored(DeliverAll(r.vm.store, order).value))
  {
    var r := UpdateAPICache(app, false, ds, clock).0;
    assert r.vm.store == [] && r.pending == ds;
    DeliverAllAppends([], ds);
    DeliverAllAppends([], order);
    if DeliverAll([], order).Ok? {
      forall i | 0 <= i < |ds| ensures Deliverable(ds[i]) {
        assert ds[i] in multiset(order) by { assert ds[i] in multiset(ds); }
      }
      FlatMapPermutation(order, ds, RowsOf);
      assert [] + AllRows(order) == AllRows(order);
      UniqueKeysPermutation(AllRows(order), AllRows(ds));
      DeliverAllAppends([], ds);
      assert [] + AllRows(ds) == AllRows(ds);
      ArrivalOrderIrrelevant([], ds, order);
      DeliverAllColored([], order);
    } else if (forall i | 0 <= i < |ds| :: Deliverable(ds[i])) && UniqueKeys(AllRows(ds)) {
      assert [] + AllRows(ds) == AllRows(ds);
      ArrivalOrderIrrelevant([], ds, order);
    }
  }

  /** Handling deliveries keeps every row coloured by its type. */
  lemma {:induction false} DeliverAllColored(store: seq<Center>, ds: seq<Delivery>)
    requires RowsColored(store)
    ensures DeliverAll(store, ds).Ok? ==> RowsColored(DeliverAll(store, ds).value)
    decreases |ds|
  {
    if |ds| > 0 && Deliver(store, ds[0]).Ok? {
      DeliverAllColored(Deliver(store, ds[0]).value, ds[1..]);
    }
  }

  /** One step of the progress loop, with its emission handed to the
      progress callback. The flag is released exactly when the done emission
      is collected. */
  function Collect(app: App, e: Progress.Env): (r: (App, Option<Progress.Emission>))
    ensures app.loop.None? ==> r == (app, None)
    ensures app.loop.Some? ==> r.1 == Progress.Step(app.loop.value, e).out
    ensures app.loop.Some? && !(r.1.Some? && r.1.value.done) ==>
      r.0.loop == Some(Progress.Step(app.loop.value, e).next)
    ensures r.1.Some? && r.1.value.done ==> r.0.loop.None?
    ensures r.0.vm.inUse <==> app.vm.inUse && !(r.1.Some? && r.1.value.done)
    ensures r.1.Some? && r.1.value.done ==> r.1.value == Progress.Emission(Progress.Target, true)
    ensures r.0.vm.store == app.vm.store && r.0.pending == app.pending
    ensures AppInv(app) ==> AppInv(r.0)
  {
    match app.loop
    case None => (app, None)
    case Some(loop) =>
      var t := Progress.Step(loop, e);
      if t.out.Some? && t.out.value.done then
        (App(app.vm.(inUse := false), None, app.pending), t.out)
      else
        (app.(loop := Some(t.next)), t.out)
  }

  /** The answer to the `k`-th pending page arrives and is handled; an index
      past the pending ones means nothing arrives. */
  function Arrive(app: App, k: nat): (r: Result<App, Failure>)
    ensures k >= |app.pending| ==> r == Ok(app)
    ensures k < |app.pending| && UniqueKeys(app.vm.store) ==>
      (r.Ok? <==> Deliverable(app.pending[k]) && UniqueKeys(app.vm.store + RowsOf(app.pending[k])))
    ensures k < |app.pending| ==>
      (r.Ok? ==> Deliverable(app.pending[k])
                    && r.value.vm.store == app.vm.store + RowsOf(app.pending[k])
                    && r.value.pending == app.pending[..k] + app.pending[k + 1..]
                    && r.value.vm.inUse == app.vm.inUse && r.value.loop == app.loop)
    ensures r.Ok? && AppInv(app) ==> AppInv(r.value)
  {
    if k >= |app.pending| then Ok(app)
    else
      match Deliver(app.vm.store, app.pending[k])
      case Err(f) => Err(f)
      case Ok(store) =>
        Ok(App(app.vm.(store := store), app.loop, app.pending[..k] + app.pending[k + 1..]))
  }

  /** The splash screen's rule: a store with fewer than 100 rows was either
      never loaded or cut off halfway, and is refreshed; with at least 100 it
      is taken as loaded and the refresh skips the API. */
  function CacheIsWarm(count: nat): (warm: bool)
    ensures !warm <==> count < 100
    ensures count == 0 ==> !warm
  {
    count >= WarmCacheRows
  }

  /** The splash screen starting the application: counts the rows, then asks
      for a refresh that skips the API when the store is warm. A warm store is
      kept and no page is requested; otherwise the store is emptied and the
      default ten pages are requested. */
  method SplashStart(app: App, emulateSlowAPICall: bool, server: int -> Outcome, clock: int)
    returns (next: App, accepted: bool, requests: seq<Request>)
    ensures accepted <==> !app.vm.inUse
    ensures !accepted ==> next == app && requests == []
    ensures accepted && CacheIsWarm(GetDBCount(app.vm)) ==>
      next.vm.store == app.vm.store && next.vm.cached == app.vm.cached
      && requests == [] && next.pending == app.pending
      && next.loop == Some(Progress.Start(true, clock))
    ensures accepted && !CacheIsWarm(GetDBCount(app.vm)) ==>
      next.vm.store == [] && |requests| == DefaultPages
      && (forall i | 0 <= i < |requests| :: requests[i] == GetCenters(i + 1, ApiPagePerPage))
      && |next.pending| == |app.pending| + DefaultPages
      && next.pending[..|app.pending|] == app.pending
      && (forall i | 0 <= i < DefaultPages ::
            next.pending[|app.pending|..][i] == OnOutcome(i + 1, server(i + 1)))
      && next.loop == Some(Progress.Start(false, clock))
    ensures AppInv(app) ==> AppInv(next)
  {
    var skip := CacheIsWarm(GetDBCount(app.vm));
    var dispatched: seq<Delivery> := [];
    requests := [];
    if !skip && !app.vm.inUse {
      var pauses;
      requests, dispatched, pauses := CallAPI(DefaultPages, emulateSlowAPICall, server);
    }
    var r := UpdateAPICache(app, skip, dispatched, clock);
    next, accepted := r.0, r.1;
  }
}

=== FILE: center.dfy ===
/** The `Center` entity stored in the cache and shown on the map, and the
    conversion from an API record to it (`domain/Center.kt`). */
module Domain {
  import opened Base
  import opened Geometry
  import opened CenterApi

  /** Marker tints. */
  datatype Color = Transparent | Blue | Magenta

  /** Center type label of the central/regional centers. */
  const CentralRegional: string := "중앙/권역"
  /** Center type label of the local centers. */
  const Local: string := "지역"

  /** `centerTypeToColor`: an exact match on the two known labels, with
      every other text, the empty one included, falling to magenta. */
  function CenterTypeToColor(centerType: string): (c: Color)
    ensures c == Transparent <==> centerType == CentralRegional
    ensures c == Blue <==> centerType == Local
    ensures c == Magenta <==> centerType != CentralRegional && centerType != Local
  {
    if centerType == CentralRegional then Transparent
    else if centerType == Local then Blue
    else Magenta
  }

  /** A row of the cache (`Center`). The primary constructor takes the marker
      colour as given; see `NewCenter` for the one that derives it. */
  datatype Center = Center(
    id: Int32,
    pos: LatLng,
    address: string,
    centerName: string,
    facilityName: string,
    phoneNumber: string,
    updatedAt: string,
    centerType: string,
    markerColor: Color)

  /** The marker colour is the one the center type calls for. */
  predicate ColorMatchesType(c: Center) {
    c.markerColor == CenterTypeToColor(c.centerType)
  }

  /** The eight-argument constructor: every field as given, and the marker
      colour derived from the center type. */
  function NewCenter(
    id: Int32, pos: LatLng, address: string, centerName: string, facilityName: string,
    phoneNumber: string, updatedAt: string, centerType: string): (c: Center)
    ensures ColorMatchesType(c)
    ensures c.id == id && c.pos == pos && c.address == address && c.centerName == centerName
    ensures c.facilityName == facilityName && c.phoneNumber == phoneNumber
    ensures c.updatedAt == updatedAt && c.centerType == centerType
  {
    Center(id, pos, address, centerName, facilityName, phoneNumber, updatedAt, centerType,
      CenterTypeToColor(centerType))
  }

  /** `centerModelToCenter`: parses `lat` then `lng` (a text that is not a
      number throws, with no fallback), copies seven fields unchanged and
      derives the marker colour. */
  function CenterModelToCenter(m: CenterModel): (r: Result<Center, Failure>)
    ensures r.Ok? <==> IsNumeric(m.lat) && IsNumeric(m.lng)
    ensures !IsNumeric(m.lat) ==> r == Err(NumberFormat(m.lat))
    ensures IsNumeric(m.lat) && !IsNumeric(m.lng) ==> r == Err(NumberFormat(m.lng))
    ensures r.Ok? ==> && r.value.pos.latitude.text == m.lat && r.value.pos.longitude.text == m.lng
                      && r.value.id == m.id && r.value.address == m.address
                      && r.value.centerName == m.centerName && r.value.facilityName == m.facilityName
                      && r.value.phoneNumber == m.phoneNumber && r.value.updatedAt == m.updatedAt
                      && r.value.centerType == m.centerType
                      && ColorMatchesType(r.value)
  {
    match ToDouble(m.lat)
    case None => Err(NumberFormat(m.lat))
    case Some(lat) =>
      match ToDouble(m.lng)
      case None => Err(NumberFormat(m.lng))
      case Some(lng) =>
        Ok(NewCenter(m.id, LatLng(lat, lng), m.address, m.centerName, m.facilityName,
          m.phoneNumber, m.updatedAt, m.centerType))
  }

  /** The fields of an API record that the conversion reads. */
  predicate SameConvertedFields(a: CenterModel, b: CenterModel) {
    && a.lat == b.lat && a.lng == b.lng
    && SameCopiedFields(a, b)
  }

  /** The seven fields the conversion copies unchanged. */
  predicate SameCopiedFields(a: CenterModel, b: CenterModel) {
    && a.id == b.id && a.address == b.address
    && a.centerName == b.centerName && a.facilityName == b.facilityName
    && a.phoneNumber == b.phoneNumber && a.updatedAt == b.updatedAt
    && a.centerType == b.centerType
  }

  /** `sido`, `sigungu`, `zipCode`, `createdAt` and `org` are dropped: records
      that differ only there convert alike, and conversion succeeds or fails
      alike. Conversely, a record that converts determines the fields copied
      unchanged (the coordinate texts are read as numbers, and two texts can
      name the same number). */
  lemma ConversionIgnoresRegionFields(a: CenterModel, b: CenterModel)
    ensures SameConvertedFields(a, b) ==> CenterModelToCenter(a) == CenterModelToCenter(b)
    ensures CenterModelToCenter(a).Ok? && CenterModelToCenter(a) == CenterModelToCenter(b)
            ==> SameCopiedFields(a, b)
  {
  }
}

=== FILE: center_api.dfy ===
/** The vaccination-center REST client (`CenterAPI.callAPI`): pages 1..n are
    requested one after another, and the answer to each page is routed to the
    page-done or the page-failed callback. The network is a parameter: the
    answer the server gives for each page index. */
module CenterApi {
  import opened Base

  /** Records per page (`API_PAGE_PERPAGE`). */
  const ApiPagePerPage := 10
  /** Pages requested when the caller does not say (`pages = 10`). */
  const DefaultPages := 10
  /** The pause after each request when a slow network is emulated. */
  const SlowCallDelayMillis: nat := 500
  /** The response code reported when no response arrived at all. */
  const NoResponseCode := -1
  const HttpOk := 200

  /** One record as the API sends it (`CenterAPIModel`). */
  datatype CenterModel = CenterModel(
    id: Int32,
    centerName: string,
    sido: string,
    sigungu: string,
    facilityName: string,
    zipCode: string,
    address: string,
    lat: string,
    lng: string,
    createdAt: string,
    updatedAt: string,
    centerType: string,
    org: string,
    phoneNumber: string)

  /** The body of one page (`CenterAPIResponse`). Only `data` is read. */
  datatype PageBody = PageBody(
    page: Int32,
    perPage: Int32,
    totalCount: Int32,
    currentCount: Int32,
    matchCount: Int32,
    data: seq<CenterModel>)

  /** What the HTTP client reports for one request: a response (whose body
      the JSON converter may have left null) or no response at all. */
  datatype Outcome =
    | Response(successful: bool, code: Int32, body: Option<PageBody>)
    | TransportFailure

  /** `GET v1/centers?page=<page>&perPage=<perPage>`. */
  datatype Request = GetCenters(page: int, perPage: int)

  /** What handling the outcome of one page does: call `onAPIPageDone`, call
      `onAPIFailed`, or throw before any callback runs (the `!!` on a null
      body). */
  datatype Delivery =
    | PageDone(page: int, data: seq<CenterModel>)
    | PageFailed(page: int, code: int)
    | Threw(page: int, failure: Failure)

  predicate IsAccepted(o: Outcome) {
    o.Response? && o.successful && o.code as int == HttpOk
  }

  /** The response callback of one page. A successful response with code 200
      goes to the page-done callback with the page's records; every other
      response, and a transport failure with code -1, goes to the page-failed
      callback. */
  function OnOutcome(page: int, o: Outcome): (d: Delivery)
    ensures d.page == page
    ensures d.PageDone? <==> IsAccepted(o) && o.body.Some?
    ensures d.PageDone? ==> d.data == o.body.value.data
    ensures d.PageFailed? <==> !IsAccepted(o)
    ensures d.PageFailed? && o.Response? ==> d.code == o.code as int
    ensures d.PageFailed? && o.TransportFailure? ==> d.code == NoResponseCode
    ensures d.Threw? <==> IsAccepted(o) && o.body.None?
    ensures d.Threw? ==> d.failure == NullPointer
  {
    match o
    case TransportFailure => PageFailed(page, NoResponseCode)
    case Response(_, code, body) =>
      if IsAccepted(o) then
        match body
        case Some(b) => PageDone(page, b.data)
        case None => Threw(page, NullPointer)
      else PageFailed(page, code as int)
  }

  /** How often `page` occurs among the requests. */
  function CountPage(requests: seq<Request>, page: int): nat
  {
    if |requests| == 0 then 0
    else (if requests[0].page == page then 1 else 0) + CountPage(requests[1..], page)
  }

  /** Requests for consecutive pages from `first` on name every page of that
      range exactly once and no other page. */
  lemma {:induction false} ConsecutiveRequestsOnce(requests: seq<Request>, first: int, page: int)
    requires forall i | 0 <= i < |requests| :: requests[i].page == first + i
    ensures CountPage(requests, page) == if first <= page < first + |requests| then 1 else 0
    decreases |requests|
  {
    if |requests| > 0 {
      ConsecutiveRequestsOnce(requests[1..], first + 1, page);
    }
  }

  /** `callAPI`: requests pages 1..pages in increasing order (none when
      `pages` is below 1), each page exactly once, and routes the server's
      answer to each page through `OnOutcome`. Emulating a slow network only
      adds a pause after each request: the requests and deliveries do not
      depend on it. */
  method CallAPI(pages: int, emulateSlowAPICall: bool, server: int -> Outcome)
    returns (requests: seq<Request>, deliveries: seq<Delivery>, pauses: seq<nat>)
    ensures |requests| == |deliveries| == |pauses| == Max(pages, 0)
    ensures forall i | 0 <= i < |requests| :: requests[i] == GetCenters(i + 1, ApiPagePerPage)
    ensures forall p :: CountPage(requests, p) == if 1 <= p <= pages then 1 else 0
    ensures forall i | 0 <= i < |deliveries| :: deliveries[i] == OnOutcome(i + 1, server(i + 1))
    ensures forall i | 0 <= i < |pauses| ::
      pauses[i] == if emulateSlowAPICall then SlowCallDelayMillis else 0
  {
    requests, deliveries, pauses := [], [], [];
    var i := 1;
    while i <= pages
      invariant 1 <= i <= Max(pages, 0) + 1
      invariant |requests| == |deliveries| == |pauses| == i - 1
      invariant forall j | 0 <= j < |requests| :: requests[j] == GetCenters(j + 1, ApiPagePerPage)
      invariant forall j | 0 <= j < |deliveries| :: deliveries[j] == OnOutcome(j + 1, server(j + 1))
      invariant forall j | 0 <= j < |pauses| ::
        pauses[j] == if emulateSlowAPICall then SlowCallDelayMillis else 0
    {
      requests := requests + [GetCenters(i, ApiPagePerPage)];
      deliveries := deliveries + [OnOutcome(i, server(i))];
      pauses := pauses + [if emulateSlowAPICall then SlowCallDelayMillis else 0];
      i := i + 1;
    }
    forall p
      ensures CountPage(requests, p) == if 1 <= p <= pages then 1 else 0
    {
      ConsecutiveRequestsOnce(requests, 1, p);
    }
  }
}

=== FILE: geometry.dfy ===
/** Coordinates as the application sees them: a map `LatLng` of two doubles.
    A double is represented by the numeric text it was parsed from, so that
    `String.toDouble` and `Double.toString` become a parser and its inverse on
    tokens; no floating-point value is computed. */
module Geometry {
  import opened Base

  predicate IsDigit(c: char) { '0' <= c <= '9' }

  predicate AllDigits(s: string) {
    forall i | 0 <= i < |s| :: IsDigit(s[i])
  }

  /** Digits with at most one decimal point and at least one digit:
      "37", "37.5", ".5" and "5." are decimals, "." and "" are not. */
  predicate IsDecimal(s: string) {
    match IndexOf(s, '.')
    case None => |s| > 0 && AllDigits(s)
    case Some(k) => AllDigits(s[..k]) && AllDigits(s[k + 1..]) && |s| > 1
  }

  predicate HasSign(s: string) {
    |s| > 0 && (s[0] == '+' || s[0] == '-')
  }

  function Unsigned(s: string): (u: string)
    ensures HasSign(s) ==> s == [s[0]] + u
    ensures !HasSign(s) ==> u == s
  {
    if HasSign(s) then s[1..] else s
  }

  /** An optionally signed, non-empty run of digits: the exponent of "1.0E-5". */
  predicate IsExponent(s: string) {
    |Unsigned(s)| > 0 && AllDigits(Unsigned(s))
  }

  /** Position of the first exponent marker, `e` or `E`. */
  function ExponentMark(s: string): (r: Option<nat>)
    ensures r.Some? ==> r.value < |s| && (s[r.value] == 'e' || s[r.value] == 'E')
    ensures r.None? ==> 'e' !in s && 'E' !in s
  {
    match (IndexOf(s, 'e'), IndexOf(s, 'E'))
    case (None, None) => None
    case (Some(a), None) => Some(a)
    case (None, Some(b)) => Some(b)
    case (Some(a), Some(b)) => if a <= b then Some(a) else Some(b)
  }

  /** The numeric texts accepted by the parser: an optional sign, a decimal
      mantissa and an optional exponent. */
  predicate IsNumeric(s: string) {
    var m := Unsigned(s);
    match ExponentMark(m)
    case None => IsDecimal(m)
    case Some(k) => IsDecimal(m[..k]) && IsExponent(m[k + 1..])
  }

  type NumericText = s: string | IsNumeric(s) witness "0"

  /** A double, identified with the numeric text that denotes it. */
  datatype Double = Double(text: NumericText)

  /** A map position (`com.naver.maps.geometry.LatLng`). */
  datatype LatLng = LatLng(latitude: Double, longitude: Double)

  /** `String.toDouble()`: fails on text that is not a number. */
  function ToDouble(s: string): (r: Option<Double>)
    ensures r.Some? <==> IsNumeric(s)
    ensures r.Some? ==> r.value.text == s
  {
    if IsNumeric(s) then Some(Double(s)) else None
  }

  /** `Double.toString()`: the text parses back to the same double and never
      contains the `;` that the position codec uses as its separator. */
  function ToText(d: Double): (t: string)
    ensures ToDouble(t) == Some(d)
    ensures ';' !in t
  {
    NumericHasNoSemicolon(d.text);
    d.text
  }

  lemma DigitsHaveNoSemicolon(s: string)
    requires AllDigits(s)
    ensures ';' !in s
  {
  }

  /** A string cut at position `k` into two pieces without `;`, with a
      character other than `;` at `k`, has no `;`. */
  lemma CutHasNoSemicolon(s: string, k: nat)
    requires k < |s| && s[k] != ';'
    requires ';' !in s[..k] && ';' !in s[k + 1..]
    ensures ';' !in s
  {
  }

  lemma DecimalHasNoSemicolon(s: string)
    requires IsDecimal(s)
    ensures ';' !in s
  {
  }

  lemma {:induction false} NumericHasNoSemicolon(s: string)
    requires IsNumeric(s)
    ensures ';' !in s
  {
    var m := Unsigned(s);
    match ExponentMark(m)
    case None => DecimalHasNoSemicolon(m);
    case Some(k) =>
      DecimalHasNoSemicolon(m[..k]);
      DigitsHaveNoSemicolon(Unsigned(m[k + 1..]));
      assert ';' !in m[k + 1..];
      CutHasNoSemicolon(m, k);
    if HasSign(s) {
      assert s == [s[0]] + m;
    }
  }

  /** Coordinates of the shape the API sends, digits, a point and digits
      ("37.5"), are numbers. */
  lemma PointedDigitsAreNumeric(a: string, b: string)
    requires |a| > 0 && AllDigits(a) && AllDigits(b)
    ensures IsNumeric(a + "." + b)
  {
    var s := a + "." + b;
    assert s == a + ['.'] + b;
    assert '.' !in a by { assert forall c | c in a :: IsDigit(c); }
    IndexOfAfter(a, '.', b);
    assert s[..|a|] == a && s[|a| + 1..] == b;
    assert forall i | 0 <= i < |s| :: IsDigit(s[i]) || s[i] == '.' by {
      forall i | 0 <= i < |s| ensures IsDigit(s[i]) || s[i] == '.' {
        if i < |a| { assert s[i] == a[i]; }
        else if i > |a| { assert s[i] == b[i - |a| - 1]; }
      }
    }
    assert 'e' !in s && 'E' !in s;
    assert !HasSign(s) by { assert s[0] == a[0]; }
    assert Unsigned(s) == s && ExponentMark(s) == None;
  }
}

=== FILE: position_codec.dfy ===
/** The database type converter for positions (`CenterDataConverters`): a
    `LatLng` is stored as the text "<lat>;<lng>" and read back by splitting on
    `;` and parsing the first two pieces. */
module PositionCodec {
  import opened Base
  import opened Geometry

  const Separator: char := ';'

  /** The pieces put back together with `sep` between neighbours. */
  function Join(parts: seq<string>, sep: char): string
  {
    if |parts| == 0 then ""
    else if |parts| == 1 then parts[0]
    else parts[0] + [sep] + Join(parts[1..], sep)
  }

  /** Kotlin's `split`: every piece between two separators, empty pieces and
      a trailing empty piece included. */
  function Split(s: string, sep: char): (parts: seq<string>)
    ensures |parts| >= 1
    ensures forall i | 0 <= i < |parts| :: sep !in parts[i]
    ensures Join(parts, sep) == s
    ensures |parts| == 1 <==> sep !in s
    decreases |s|
  {
    match IndexOf(s, sep)
    case None => [s]
    case Some(k) =>
      var rest := Split(s[k + 1..], sep);
      var parts := [s[..k]] + rest;
      assert parts[1..] == rest;
      assert s == s[..k] + [sep] + s[k + 1..];
      parts
  }

  /** Splitting text that starts with a separator-free piece and a separator
      yields that piece followed by the split of the remainder. */
  lemma SplitFirst(a: string, sep: char, b: string)
    requires sep !in a
    ensures Split(a + [sep] + b, sep) == [a] + Split(b, sep)
  {
    var s := a + [sep] + b;
    IndexOfAfter(a, sep, b);
    assert s[..|a|] == a;
    assert s[|a| + 1..] == b;
  }

  /** Split inverts Join: separator-free pieces come back unchanged. */
  lemma {:induction false} SplitJoin(parts: seq<string>, sep: char)
    requires |parts| >= 1
    requires forall i | 0 <= i < |parts| :: sep !in parts[i]
    ensures Split(Join(parts, sep), sep) == parts
    decreases |parts|
  {
    if |parts| > 1 {
      SplitFirst(parts[0], sep, Join(parts[1..], sep));
      SplitJoin(parts[1..], sep);
      assert parts == [parts[0]] + parts[1..];
    }
  }

  /** `latLngToStringPos`: the stored text splits into exactly the two
      component texts, and reading it back gives the same position. */
  function LatLngToStringPos(p: LatLng): (r: string)
    ensures |r| > |ToText(p.latitude)| && r[|ToText(p.latitude)|] == Separator
    ensures Split(r, Separator) == [ToText(p.latitude), ToText(p.longitude)]
    ensures FromStringPos(r) == Ok(p)
  {
    var r := ToText(p.latitude) + [Separator] + ToText(p.longitude);
    SplitFirst(ToText(p.latitude), Separator, ToText(p.longitude));
    r
  }

  /** The list reads of `fromStringPos` on the split pieces: parse piece 0,
      then index and parse piece 1, in the order the Kotlin expression
      evaluates them. Pieces after the second are never looked at. */
  function DecodePieces(parts: seq<string>): Result<LatLng, Failure>
  {
    if |parts| == 0 then Err(IndexOutOfBounds(0))
    else match ToDouble(parts[0])
      case None => Err(NumberFormat(parts[0]))
      case Some(lat) =>
        if |parts| < 2 then Err(IndexOutOfBounds(1))
        else match ToDouble(parts[1])
          case None => Err(NumberFormat(parts[1]))
          case Some(lng) => Ok(LatLng(lat, lng))
  }

  /** `fromStringPos`: split on `;` and decode the first two pieces. */
  function FromStringPos(value: string): (r: Result<LatLng, Failure>)
    ensures var parts := Split(value, Separator);
      && (r.Ok? <==> |parts| >= 2 && IsNumeric(parts[0]) && IsNumeric(parts[1]))
      && (r.Ok? ==> r.value.latitude.text == parts[0] && r.value.longitude.text == parts[1])
      && (!IsNumeric(parts[0]) ==> r == Err(NumberFormat(parts[0])))
      && (IsNumeric(parts[0]) && |parts| == 1 ==> r == Err(IndexOutOfBounds(1)))
      && (IsNumeric(parts[0]) && |parts| >= 2 && !IsNumeric(parts[1]) ==> r == Err(NumberFormat(parts[1])))
    ensures Separator !in value ==> r.Err?
  {
    DecodePieces(Split(value, Separator))
  }

  /** Decoding "<a>;<b>" for separator-free texts gives back exactly `a` and
      `b` as the two components when both are numbers, and otherwise the
      format error for the first one that is not. */
  lemma DecodePair(a: string, b: string)
    requires Separator !in a && Separator !in b
    ensures IsNumeric(a) && IsNumeric(b) ==> FromStringPos(a + [Separator] + b) == Ok(LatLng(Double(a), Double(b)))
    ensures !IsNumeric(a) ==> FromStringPos(a + [Separator] + b) == Err(NumberFormat(a))
    ensures IsNumeric(a) && !IsNumeric(b) ==> FromStringPos(a + [Separator] + b) == Err(NumberFormat(b))
  {
    SplitFirst(a, Separator, b);
  }

  /** Everything from a second separator on is ignored. */
  lemma DecodeIgnoresTail(a: string, b: string, tail: string)
    requires Separator !in a && Separator !in b
    ensures FromStringPos(a + [Separator] + b + [Separator] + tail) == FromStringPos(a + [Separator] + b)
  {
    var long := a + [Separator] + b + [Separator] + tail;
    var short := a + [Separator] + b;
    assert long == a + [Separator] + (b + [Separator] + tail);
    SplitFirst(a, Separator, b + [Separator] + tail);
    SplitFirst(b, Separator, tail);
    SplitFirst(a, Separator, b);
    LeadingPiecesDecide(Split(long, Separator), Split(short, Separator));
  }

  /** Piece lists whose first two pieces agree decode alike. */
  lemma LeadingPiecesDecide(p: seq<string>, q: seq<string>)
    requires |p| >= 2 && |q| >= 2 && p[0] == q[0] && p[1] == q[1]
    ensures DecodePieces(p) == DecodePieces(q)
  {
  }

  /** Text without a separator never decodes: piece 1 is missing. */
  lemma DecodeNeedsSeparator(value: string)
    requires Separator !in value
    ensures FromStringPos(value).Err?
    ensures IsNumeric(value) ==> FromStringPos(value) == Err(IndexOutOfBounds(1))
  {
  }
}

=== FILE: progress.dfy ===
/** The splash-screen progress loop of `updateAPICacheAndReturnFlow`.

    The loop is modelled as a small-step machine whose steps run from one read
    of the readiness flag to the next; a step emits at most one
    `(progress, done)` pair. The flag is set by another coroutine and only ever
    becomes true, so each step receives whether it has arrived, together with
    the clock readings the step makes. Progress is a real number. */
module Progress {
  import opened Base

  /** The pause between two emissions, and the unit the step count is in. */
  const TickMillis := 10
  /** Budget of the ramp from the start. */
  const RampBudgetMillis := 2000
  /** Budget of the catch-up after a wait for data. */
  const CatchUpBudgetMillis := 700
  /** The mark at which the loop waits for data. */
  const WaitMark: real := 0.8
  /** The progress the loop heads for. */
  const Target: real := 1.0

  /** Where the loop is: at the outer loop test, at the inner wait test, or past the loop. */
  datatype Pc = AtLoopHead | AtWaitCheck | Finished

  /** The loop's variables: progress, the budget in milliseconds, the clock
      value elapsed time is measured from, whether it is waiting for data, and
      the readiness last read. */
  datatype Loop = Loop(progress: real, budget: int, ref: int, waiting: bool, ready: bool, pc: Pc)

  /** One emitted pair. */
  datatype Emission = Emission(progress: real, done: bool)

  /** What happens around one step: whether readiness has arrived, the clock
      read when a wait ends, and the clock read for the elapsed time. */
  datatype Env = Env(readyArrives: bool, resetClock: int, clock: int)

  datatype Tick = Tick(next: Loop, out: Option<Emission>)

  /** What holds of the loop's variables at every step boundary. */
  predicate Inv(s: Loop) {
    && 0.0 <= s.progress <= Target
    && (s.budget == RampBudgetMillis || s.budget == CatchUpBudgetMillis)
    && (s.waiting ==> s.pc == AtWaitCheck && s.progress == WaitMark && !s.ready)
    && (s.pc == Finished ==> s.ready && s.progress == Target)
  }

  /** The number of ticks left, from the time left in the budget. */
  function StepCount(budget: int, elapsed: int): (n: int)
    ensures n >= 0
    ensures n <= 1 <==> budget - elapsed < 2 * TickMillis
  {
    Max(budget - elapsed, 1) / TickMillis
  }

  /** One recomputed step toward the target: the distance still to go is
      spread over the ticks left. From within [0, 1] progress never falls and
      never overshoots, and it lands exactly on the target when fewer than two
      ticks are left. */
  function Advance(p: real, budget: int, elapsed: int): (q: real)
    ensures 0.0 <= p <= Target ==> p <= q <= Target
    ensures 0.0 <= p <= Target ==> (q == Target <==> p == Target || budget - elapsed < 2 * TickMillis)
  {
    var k := Max(StepCount(budget, elapsed), 1);
    ShareOfDistance(Target - p, k);
    p + (Target - p) / k as real
  }

  /** A share `d / k` of a distance `d` that is not negative, for at least one
      tick, is between nothing and all of it, and is all of it only for one
      tick or no distance. */
  lemma ShareOfDistance(d: real, k: int)
    requires k >= 1
    ensures d >= 0.0 ==> 0.0 <= d / k as real <= d
    ensures d >= 0.0 ==> (d / k as real == d <==> d == 0.0 || k == 1)
  {
  }

  /** The loop before its first iteration. Whatever happens in the first
      step, it emits `(0, false)`. */
  function Start(dataReady: bool, clock: int): (s: Loop)
    ensures Inv(s) && s.ready == dataReady && s.pc == AtLoopHead && s.budget == RampBudgetMillis
    // The ramp starts from nothing, not waiting, with its time measured from the start.
    ensures s.progress == 0.0 && !s.waiting && s.ref == clock
    ensures forall e :: Step(s, e).out == Some(Emission(0.0, false))
  {
    Loop(0.0, RampBudgetMillis, clock, false, dataReady, AtLoopHead)
  }

  /** One step of the loop. */
  function Step(s: Loop, e: Env): (t: Tick)
    ensures t.next.ready == (s.ready || e.readyArrives)
    ensures Inv(s) ==> Inv(t.next)
    // Done is emitted once, on leaving the loop, and only with progress at the target and data ready.
    ensures t.out.Some? && t.out.value.done <==> s.pc != Finished && t.next.pc == Finished
    ensures t.out.Some? && t.out.value.done ==>
      t.out.value == Emission(Target, true) && s.pc == AtLoopHead && s.progress >= Target && t.next.ready
    ensures s.pc == Finished ==> t.out.None? && t.next == s.(ready := t.next.ready)
    // Waiting: progress is pinned at the mark, and so is the emission.
    ensures s.pc == AtWaitCheck && s.progress >= WaitMark && !t.next.ready ==>
      t.next.waiting && t.next.progress == WaitMark && t.next.pc == AtWaitCheck
      && t.out == Some(Emission(WaitMark, false))
    // Leaving a wait: restart from the mark, with the catch-up budget measured from a fresh reference.
    ensures s.pc == AtWaitCheck && s.waiting && t.next.ready ==>
      !t.next.waiting && t.next.budget == CatchUpBudgetMillis && t.next.ref == e.resetClock
      && t.next.progress == Advance(WaitMark, CatchUpBudgetMillis, e.clock - e.resetClock)
      && t.out.None? && t.next.pc == AtLoopHead
    // Without a wait the budget and the reference are kept.
    ensures !s.waiting && !t.next.waiting ==> t.next.budget == s.budget && t.next.ref == s.ref
    // At the loop head, short of the target or without data, the current progress is emitted.
    ensures s.pc == AtLoopHead && (s.progress < Target || !t.next.ready) ==>
      t.out == Some(Emission(s.progress, false))
      && t.next == s.(ready := t.next.ready, pc := AtWaitCheck)
    // An ordinary step: no wait to enter or leave, so progress advances along the ramp.
    ensures s.pc == AtWaitCheck && !s.waiting && !(s.progress >= WaitMark && !t.next.ready) ==>
      t.out.None? && t.next.pc == AtLoopHead
      && t.next.progress == Advance(s.progress, s.budget, e.clock - s.ref)
    // What is shown always lies between nothing and the target.
    ensures Inv(s) && t.out.Some? ==> 0.0 <= t.out.value.progress <= Target
  {
    var ready := s.ready || e.readyArrives;
    match s.pc
    case Finished => Tick(s.(ready := ready), None)
    case AtLoopHead =>
      if s.progress < Target || !ready then
        Tick(s.(ready := ready, pc := AtWaitCheck), Some(Emission(s.progress, false)))
      else
        Tick(s.(ready := ready, pc := Finished), Some(Emission(Target, true)))
    case AtWaitCheck =>
      if s.progress >= WaitMark && !ready then
        Tick(s.(ready := ready, waiting := true, progress := WaitMark), Some(Emission(WaitMark, false)))
      else if s.waiting then
        var q := Advance(WaitMark, CatchUpBudgetMillis, e.clock - e.resetClock);
        Tick(Loop(q, CatchUpBudgetMillis, e.resetClock, false, ready, AtLoopHead), None)
      else
        var q := Advance(s.progress, s.budget, e.clock - s.ref);
        Tick(s.(ready := ready, progress := q, pc := AtLoopHead), None)
  }

  /** The emissions and final state of a sequence of steps. */
  datatype Trace = Trace(last: Loop, out: seq<Emission>)

  function Emitted(o: Option<Emission>): seq<Emission> {
    match o
    case None => []
    case Some(e) => [e]
  }

  /** The loop driven through one step per environment entry. */
  function Run(s: Loop, envs: seq<Env>): Trace
    decreases |envs|
  {
    if |envs| == 0 then Trace(s, [])
    else
      var t := Step(s, envs[0]);
      var rest := Run(t.next, envs[1..]);
      Trace(rest.last, Emitted(t.out) + rest.out)
  }
}

=== FILE: progress_properties.dfy ===
/** Properties of whole runs of the progress loop. */
module ProgressProperties {
  import opened Base
  import opened Progress

  /** The emission the loop repeats while it waits for data. */
  const Pinned := Emission(WaitMark, false)

  /** Each emission is at least the one before it (the first at least `floor`),
      except, when `pinAllowed`, the pinned emission of a wait. */
  predicate Rises(floor: real, out: seq<Emission>, pinAllowed: bool) {
    && (|out| > 0 ==> (pinAllowed && out[0] == Pinned) || out[0].progress >= floor)
    && forall i | 0 < i < |out| :: (pinAllowed && out[i] == Pinned) || out[i].progress >= out[i - 1].progress
  }

  lemma RisesCons(floor: real, e: Emission, rest: seq<Emission>, pinAllowed: bool)
    requires (pinAllowed && e == Pinned) || e.progress >= floor
    requires Rises(e.progress, rest, pinAllowed)
    ensures Rises(floor, [e] + rest, pinAllowed)
  {
  }

  lemma RisesAllowingPins(floor: real, out: seq<Emission>, pinAllowed: bool)
    requires Rises(floor, out, false)
    ensures Rises(floor, out, pinAllowed)
  {
  }

  /** The invariant holds after any number of steps. */
  lemma {:induction false} RunKeepsInvariant(s: Loop, envs: seq<Env>)
    requires Inv(s)
    ensures Inv(Run(s, envs).last)
    decreases |envs|
  {
    if |envs| > 0 {
      RunKeepsInvariant(Step(s, envs[0]).next, envs[1..]);
    }
  }

  /** Every emission of a run from a sound state lies between nothing and the
      target, so the progress shown is always a proper fraction. */
  lemma {:induction false} EmissionsInRange(s: Loop, envs: seq<Env>)
    requires Inv(s)
    ensures forall i | 0 <= i < |Run(s, envs).out| ::
      0.0 <= Run(s, envs).out[i].progress <= Target
    decreases |envs|
  {
    if |envs| > 0 {
      var t := Step(s, envs[0]);
      EmissionsInRange(t.next, envs[1..]);
      assert Run(s, envs).out == Emitted(t.out) + Run(t.next, envs[1..]).out;
    }
  }

  /** Readiness, once read, stays; and it is read as soon as it arrives. */
  lemma {:induction false} ReadinessIsMonotone(s: Loop, envs: seq<Env>)
    ensures s.ready ==> Run(s, envs).last.ready
    ensures (exists i | 0 <= i < |envs| :: envs[i].readyArrives) ==> Run(s, envs).last.ready
    decreases |envs|
  {
    if |envs| > 0 {
      var t := Step(s, envs[0]);
      ReadinessIsMonotone(t.next, envs[1..]);
      if exists i | 0 <= i < |envs| :: envs[i].readyArrives {
        var i :| 0 <= i < |envs| && envs[i].readyArrives;
        if i > 0 {
          assert envs[1..][i - 1].readyArrives;
        }
      }
    }
  }

  /** A done emission comes only last and is `(1, true)`; the run has ended
      exactly when one was emitted (or it started ended, and then emits
      nothing). So a run from the start that ends emits `(1, true)` exactly once. */
  lemma {:induction false} DoneIsLastAndUnique(s: Loop, envs: seq<Env>)
    ensures var r := Run(s, envs);
      forall i | 0 <= i < |r.out| :: r.out[i].done ==> i == |r.out| - 1 && r.out[i] == Emission(Target, true)
    ensures s.pc == Finished ==> Run(s, envs).out == [] && Run(s, envs).last.pc == Finished
    ensures var r := Run(s, envs);
      r.last.pc == Finished <==> s.pc == Finished || (|r.out| > 0 && r.out[|r.out| - 1].done)
    decreases |envs|
  {
    if |envs| > 0 {
      var t := Step(s, envs[0]);
      var rest := Run(t.next, envs[1..]);
      DoneIsLastAndUnique(t.next, envs[1..]);
      var out := Emitted(t.out) + rest.out;
      if t.out.Some? {
        assert out == [t.out.value] + rest.out;
        forall i | 0 < i < |out|
          ensures out[i] == rest.out[i - 1]
        {
        }
      }
    }
  }

  /** Progress never goes down, except to the pinned `(0.8, false)` of a wait;
      once data is ready there are no waits and it never goes down at all. */
  lemma {:induction false} ProgressRises(s: Loop, envs: seq<Env>, floor: real)
    requires Inv(s) && floor <= s.progress
    ensures Rises(floor, Run(s, envs).out, !s.ready)
    decreases |envs|
  {
    if |envs| > 0 {
      var t := Step(s, envs[0]);
      var rest := Run(t.next, envs[1..]);
      match t.out
      case None =>
        ProgressRises(t.next, envs[1..], floor);
        assert Run(s, envs).out == rest.out;
      case Some(e) =>
        ProgressRises(t.next, envs[1..], e.progress);
        if t.next.ready {
          RisesAllowingPins(e.progress, rest.out, !s.ready);
        }
        RisesCons(floor, e, rest.out, !s.ready);
        assert Run(s, envs).out == [e] + rest.out;
    }
  }

  /** Once data is ready the wait phase is never entered: the ramp budget and
      the time reference are kept to the end. */
  lemma {:induction false} NoWaitOnceReady(s: Loop, envs: seq<Env>)
    requires Inv(s) && s.ready
    ensures !Run(s, envs).last.waiting
    ensures Run(s, envs).last.budget == s.budget && Run(s, envs).last.ref == s.ref
    decreases |envs|
  {
    if |envs| > 0 {
      NoWaitOnceReady(Step(s, envs[0]).next, envs[1..]);
    }
  }

  /** While data does not arrive, a loop that has reached the mark emits only
      `(0.8, false)`, stays waiting at 0.8, and never ends: readiness is
      needed to finish, even when progress had already reached 1. */
  lemma {:induction false} PinnedUntilReady(s: Loop, envs: seq<Env>)
    requires Inv(s) && s.pc == AtWaitCheck && s.progress >= WaitMark && !s.ready
    requires forall i | 0 <= i < |envs| :: !envs[i].readyArrives
    ensures forall i | 0 <= i < |Run(s, envs).out| :: Run(s, envs).out[i] == Pinned
    ensures |Run(s, envs).out| == |envs|
    ensures |envs| > 0 ==> Run(s, envs).last.waiting && Run(s, envs).last.progress == WaitMark
    ensures Run(s, envs).last.pc == AtWaitCheck
    decreases |envs|
  {
    if |envs| > 0 {
      var t := Step(s, envs[0]);
      assert t.next.waiting && t.out == Some(Pinned);
      forall i | 0 <= i < |envs[1..]|
        ensures !envs[1..][i].readyArrives
      {
        assert envs[1..][i] == envs[i + 1];
      }
      PinnedUntilReady(t.next, envs[1..]);
    }
  }

  /** The budget in effect for the step taken at the wait test. */
  function BudgetAfterCheck(s: Loop): int {
    if s.waiting then CatchUpBudgetMillis else s.budget
  }

  /** The time the step taken at the wait test measures as elapsed. */
  function ElapsedAfterCheck(s: Loop, e: Env): int {
    if s.waiting then e.clock - e.resetClock else e.clock - s.ref
  }

  /** With data ready and less than two ticks of the budget left, the loop
      reaches 1 in one step and ends in the next, emitting just `(1, true)`. */
  lemma FinishesOnceBudgetIsSpent(s: Loop, e1: Env, e2: Env)
    requires Inv(s) && s.pc == AtWaitCheck && (s.ready || e1.readyArrives)
    requires BudgetAfterCheck(s) - ElapsedAfterCheck(s, e1) < 2 * TickMillis
    ensures Run(s, [e1, e2]).out == [Emission(Target, true)]
    ensures Run(s, [e1, e2]).last.pc == Finished
  {
    var t1 := Step(s, e1);
    assert t1.next.progress == Target && t1.next.pc == AtLoopHead;
    var t2 := Step(t1.next, e2);
    assert t2.out == Some(Emission(Target, true)) && t2.next.pc == Finished;
    assert [e1, e2][1..] == [e2];
    assert Run(t1.next, [e2]) == Trace(t2.next, [Emission(Target, true)]);
  }

  /** The progress shown can fall: with data late, a slow tick carries the
      ramp to 1, the loop emits `(1, false)` and then drops back to the
      pinned `(0.8, false)`. */
  lemma ProgressCanFallBack()
    ensures var envs := [Env(false, 0, 0), Env(false, 0, 2000), Env(false, 0, 2000), Env(false, 0, 2000)];
      Run(Start(false, 0), envs).out
        == [Emission(0.0, false), Emission(Target, false), Emission(WaitMark, false)]
  {
  }
}
